=== FILE: README.md ===
# HiPer Bridge tray and start-button logic in Dafny

This project models three self-contained pieces of the HiPer Bridge desktop
launcher and proves properties of them:

1. **Fixed-capacity UTF-16 text fields** of the notification-area icon. The
   tooltip, the balloon title and the balloon message are each encoded to
   UTF-16 and forced into a zero-terminated array of 128, 64 and 256 code
   units by `resize(N, 0)`, `pop()`, `push(0)` and `try_into().unwrap()`
   (`fixed_buffer.dfy`, with the encoder in `utf16.dfy`).
2. **The tray-icon manager** (`tray.dfy`, `tray_properties.dfy`). The
   `TrayIcon` singleton is an immutable record: window alive or not, `enable`,
   the sticky `should_exit`, whether a druid event sink is installed, and which
   channel's sender is installed. Every public operation and the window
   procedure's click and menu handling are pure functions. Each returns the
   next record and the list of side effects it performs: shell calls, druid
   commands and channel sends. Whole runs interleave public calls, window
   messages and the shell destroying the window.
3. **The main page's token box and start button** (`ui.dfy`, with Rust's
   `str::trim` in `text.dfy`). The box's `on_change`, the button's `on_click`
   (commit, masking, start/stop by label), the `disabled_if` / `show_if`
   predicates and the IP label text are pure updates of `AppState`.

A few consequences of the code that the model makes explicit:

- `delete` (`uninit_tray`, `Drop`) does not set `should_exit`.
- The tooltip keeps at most 127 code units of text, plus the terminator.
- A recreated window gets its icon back but not its tooltip.
- The token box's `on_change` ORs the "token changed" test into the flag of
  the new state. A text-box edit leaves the flag alone, so this equals the
  old state's flag for edits (`Ui.Edit`).
- After exit is requested, a left click still submits `SHOW_HIPER_WINDOW` and
  sends `ShowWindow` on the last installed sender.
- A `take_command` that replaces a sender still being waited on drops it, and
  the earlier waiter's `recv().unwrap()` panics.

Windows constants used: `WM_ACTIVATEAPP` = 0x001C, `WM_LBUTTONUP` = 0x0202,
`WM_RBUTTONUP` = 0x0205, `WM_USER` = 0x0400; the icon's callback message is
`WM_USER + 1`. Integer widths are explicit where they matter. Code units are
`u16` values (0 to 0xFFFF). The window procedure's sub-message is the low 16
bits of the two's-complement `lparam`.

## Model

| member | source | states |
|---|---|---|
| `Utf16.Encode` | src/tray.rs:269 | `encode_utf16` yields between one and two code units per character |
| `Utf16.DecodeEncode` | src/tray.rs:269 | decoding the UTF-16 units gives back the original text: encoding loses nothing |
| `Utf16.EncodeHasZeroIff` | src/tray.rs:269 | the encoding holds a zero unit exactly when the text holds a NUL character |
| `FixedBuffer.Resize` | src/tray.rs:270 | `Vec::resize` gives length N, keeps the first N old units and pads with the fill value |
| `FixedBuffer.Pop` | src/tray.rs:271 | `Vec::pop` drops the last unit, and leaves an empty vector empty |
| `FixedBuffer.Push` | src/tray.rs:272 | `Vec::push` appends one unit and keeps the rest |
| `FixedBuffer.TryIntoArray` | src/tray.rs:273 | conversion to `[u16; N]` succeeds exactly when the length is N |
| `FixedBuffer.Pack` | src/tray.rs:269-273 | the resize/pop/push/try_into pipeline yields an array for every input iff N > 0, so the `unwrap` never panics for 128, 64 or 256; the array has N units, its last unit is 0, the input's first N-1 units are kept and the rest is zero |
| `FixedBuffer.Packed` | src/tray.rs:269-273 | for the nonzero sizes used, the unwrapped array has N units, keeps the first N-1 input units, pads with zeros and ends in 0 |
| `FixedBuffer.TooltipBuffer` | src/tray.rs:269-273 | the tooltip buffer has exactly 128 units and index 127 is 0 for any text |
| `FixedBuffer.TitleBuffer` | src/tray.rs:293-296 | the title buffer has exactly 64 units and index 63 is 0 for any text |
| `FixedBuffer.MessageBuffer` | src/tray.rs:297-300 | the message buffer has exactly 256 units and index 255 is 0 for any text |
| `FixedBuffer.PackedReadsBack` | src/tray.rs:269-273 | a reader of the zero-terminated field sees exactly the first min(length, N-1) input units when the input has no zero unit |
| `FixedBuffer.ShortTextShownExactly` | src/tray.rs:269-273 | text without NUL that fits in N-1 units is shown exactly: read back and decoded it equals the original |
| `FixedBuffer.LongTextTruncated` | src/tray.rs:269-273 | over-long text keeps exactly its first N-1 code units, however long it is |
| `FixedBuffer.BmpTooltipShowsFirstChars` | src/tray.rs:269-273 | a tooltip of one-unit characters shows its first 127 characters, so 200 characters show as 127 |
| `Tray.IconFor` | src/tray.rs:330-334 | the coloured "ICON" is chosen exactly when enabled, "ICON_GRAY" otherwise |
| `Tray.CreateWindow` | src/tray.rs:120-173 | a new tray thread creates the window and adds the icon grey |
| `Tray.New` | src/tray.rs:107-118 | the singleton starts with a live window, disabled, not exiting, no sink, no sender, showing the icon for `enable` |
| `Tray.Force` | src/tray.rs:36 | the lazy static is constructed on first use only; later uses see the same record and do nothing |
| `Tray.SetIcon` | src/tray.rs:318-339 | `set_icon(b)` records `enable := b`, changes nothing else and pushes the image for `b` |
| `Tray.InitTray` | src/tray.rs:38-45 | `init_tray` leaves the tray disabled with the grey icon shown; on first use also alive, not exiting and well-formed |
| `Tray.SetCtx` | src/tray.rs:246-248 | `set_ctx` installs the druid sink and does nothing else |
| `Tray.SetTooltip` | src/tray.rs:267-286 | `set_tooltip` sends one 128-unit zero-terminated tooltip holding the text's first 127 units, zero-padded, even after exit |
| `Tray.Notify` | src/tray.rs:288-316 | `notify` does nothing iff exit was requested; otherwise it sends a 64-unit title and a 256-unit message, each holding the input's first 63 / 255 units, zero-padded and zero-terminated |
| `Tray.Delete` | src/tray.rs:341-352 | `delete` as evidently intended: the icon is removed, the window is destroyed, and every other field, `should_exit` included, is unchanged |
| `Tray.DeleteAsWritten` | src/tray.rs:341-352 | `delete` as written: the icon is removed, but `DestroyWindow` from a thread that does not own the window fails, so the window stays alive |
| `Tray.LoseWindow` | src/tray.rs:255 | the shell destroying the window makes `IsWindow` false and changes nothing else |
| `Tray.Recreate` | src/tray.rs:255-259 | recreation with the icon added before the handle is returned: a live window showing the icon for the unchanged `enable`; exactly one window is created, and nothing but window creation and icon add/modify happens |
| `Tray.RecreateAsWritten` | src/tray.rs:160-163 | recreation as written: the handle is sent before `NIM_ADD`; when the replayed modify wins the race, the grey icon is shown whatever `enable` is |
| `Tray.TakeCommand` | src/tray.rs:250-265 | when exiting: answers `Exit` with no effect and no state change; otherwise it recreates only a dead window, exactly once, replaying `enable` and touching nothing else; it drops exactly the sender it replaces, sends nothing, installs the sender of a new channel that differs from any earlier sender, and waits on that channel |
| `Tray.Prepare` | src/tray.rs:254-262 | before waiting, `take_command` recreates a lost window exactly once and shows the icon for `enable`, and drops exactly the replaced sender; it does nothing else |
| `Tray.Dropped` | src/tray.rs:261-262 | assigning `self.sx` drops the installed sender, and only that one |
| `Tray.SubMessage` | src/tray.rs:183 | the sub-message is the unique value below 0x10000 congruent to `lparam` modulo 0x10000 |
| `Tray.Deliver` | src/tray.rs:186-191 | an intent reaches the druid sink iff one is installed and the sender iff one is installed, each at most once, the sink first and the sender last, and nothing else happens |
| `Tray.WinProc` | src/tray.rs:175-244 | left-button-up and menu item 1 send `ShowWindow` and submit `SHOW_HIPER_WINDOW`; menu item 2 sets `should_exit`, sends `Exit` and submits `CLOSE_ALL_WINDOWS`; both only to an installed sink/sender; anything else sends nothing and changes no state; the menu is shown iff the sub-message is right-button-up; only foreign messages go to `DefWindowProcW`; no other effect happens and none happens twice, so each intent is delivered at most once |
| `Tray.Receive` | src/tray.rs:264 | `recv` answers with the first message sent on the channel when nothing touched the channel before it; it fails (and `unwrap` panics) when the only sender was dropped before any send; it keeps blocking iff nothing sent on or dropped the channel |
| `Tray.ReceiveSkipsUnrelated` | src/tray.rs:261-264 | traffic on other channels before a channel's first send does not change what its receiver gets |
| `Tray.ReceiveSoleIntent` | src/tray.rs:264 | with no sender dropped, a channel that got exactly one intent receives that intent |
| `Tray.ReceiveNothingSent` | src/tray.rs:264 | with no sender dropped and nothing sent on a channel, its receiver keeps waiting |
| `Tray.Apply` | src/tray.rs:246-352 | only `take_command` replies; no operation lowers the channel count; only a window message can change `should_exit` |
| `Tray.Run` | src/tray.rs:246-352 | a run replies at most once per operation, never lowers the channel count, and keeps `should_exit` when it holds no window message |
| `TrayProperties.InitialState` | src/tray.rs:38-45 | after the first `init_tray` the tray is alive, disabled, not exiting, its icon matches `enable` and no send used an unborn channel |
| `TrayProperties.ApplyKeepsIconInSync` | src/tray.rs:318-319 | every operation keeps the invariant that a live window shows the icon for `enable` |
| `TrayProperties.RunKeepsIconInSync` | src/tray.rs:255-259 | over any run, including any number of window losses, a live window shows the icon of the last `set_icon` request |
| `TrayProperties.TakeCommandWaitsOnLiveWindow` | src/tray.rs:250-264 | unless exiting, `take_command` waits only with a live window that shows the icon for `enable` |
| `TrayProperties.ApplySendsOnOldChannels` | src/tray.rs:189-230 | every operation sends on, or drops the sender of, only channels already created and never lowers the channel count |
| `TrayProperties.RunSendsOnOldChannels` | src/tray.rs:189-230 | over any run, every send and every dropped sender uses a channel created during or before the run |
| `TrayProperties.ApplyKeepsChannelsFresh` | src/tray.rs:261-262 | every operation keeps all sends, all dropped senders and the installed sender on channels older than the next fresh one |
| `TrayProperties.RunKeepsChannelsFresh` | src/tray.rs:261-262 | the channel freshness invariant holds over any run |
| `TrayProperties.FreshRequestReceivesOnlyLaterIntents` | src/tray.rs:261-264 | nothing has sent on or dropped the channel `take_command` waits on before the call: what it receives comes only from later effects |
| `TrayProperties.NextActivationAnswers` | src/tray.rs:183-233 | after `take_command`, a left click or menu "show" answers it `ShowWindow`, menu "exit" answers `Exit` and sets `should_exit`, anything else leaves it waiting |
| `TrayProperties.SupersededWaiterPanics` | src/tray.rs:261-264 | a second `take_command` while the first still waits drops the first's only sender, so the first `recv` fails and its `unwrap` panics |
| `TrayProperties.RecreateRaceShowsGray` | src/tray.rs:160-163 | when `NIM_ADD` loses the race to the replayed modify, a live, enabled tray shows the grey icon, breaking the icon invariant |
| `TrayProperties.DeleteAsWrittenBlocksRecreation` | src/tray.rs:255 | after `delete` as written, `take_command` sees a live window and neither recreates it nor adds the icon back |
| `TrayProperties.DeleteThenTakeRecreates` | src/tray.rs:255-259 | after `delete` as intended, `take_command` creates a new window and shows the icon for `enable` |
| `TrayProperties.ExitIsSticky` | src/tray.rs:251-253 | once `should_exit` holds it stays set, every later `take_command` answers `Exit`, and no window is ever created again |
| `TrayProperties.ApplyAfterExit` | src/tray.rs:251-253 | after exit was requested, no single operation clears it, creates a window or waits instead of answering `Exit` |
| `TrayProperties.ExitOnlyFromMenu` | src/tray.rs:223-224 | `should_exit` becomes true only through an "exit" pick from the context menu |
| `TrayProperties.RecreationScenario` | src/tray.rs:250-262 | init, enable, window lost, `take_command`: the window is recreated showing the active icon, and a left click answers `ShowWindow` |
| `TrayProperties.ExitScenario` | src/tray.rs:214-231 | with a sink installed, menu "exit" submits `CLOSE_ALL_WINDOWS` exactly once, and every later `take_command` answers `Exit` without effects |
| `Text.TrimStart` | src/ui.rs:124 | `trim_start` removes exactly a whitespace prefix and stops at a non-whitespace character |
| `Text.TrimEnd` | src/ui.rs:124 | `trim_end` removes exactly a whitespace suffix and stops at a non-whitespace character |
| `Text.Trim` | src/ui.rs:124 | `trim` yields a contiguous piece of the string with only whitespace before and after it, starting and ending with a non-whitespace character |
| `Text.TrimEmptyIff` | src/ui.rs:124 | a string trims to empty iff every character is whitespace |
| `Ui.OnChange` | src/ui.rs:80-82 | editing changes only the flag; it sets it when the token text changed and never clears it |
| `Ui.Edit` | src/ui.rs:77-82 | typing replaces the token and may only change the flag besides |
| `Ui.Commit` | src/ui.rs:93-99 | with the flag set, `inner_token` becomes the typed token, the flag clears, and the box shows the mask iff the committed token is non-empty; without the flag nothing changes |
| `Ui.OnClick` | src/ui.rs:91-122 | label "启动" starts the worker with the committed token and `use_tun`; label "关闭" emits disable, stop, enable in that order; any other label emits nothing |
| `Ui.IpLabel` | src/ui.rs:47-53 | the label is empty iff the IP is empty, otherwise the fixed prefix followed by the IP |
| `Ui.IpLabelDeterminesIp` | src/ui.rs:47-53 | two states with the same label text have the same IP |
| `Ui.StartDisabled` | src/ui.rs:124 | the start button is disabled iff every character of the box is whitespace |
| `Ui.InputsDisabled` | src/ui.rs:83 | the token box and the TUN toggle are disabled exactly while the IP row is shown |
| `Ui.IpRowShown` | src/ui.rs:73 | the IP row is shown iff its label has text |
| `Ui.ClickKeepsStartEnabled` | src/ui.rs:93-99 | a click on an enabled start button (a box with a non-whitespace character) never disables it, because the mask is not blank |
| `Ui.ClickCommitIdempotent` | src/ui.rs:93-99 | a second click without an edit commits nothing more |
| `Ui.SecondClickSameToken` | src/ui.rs:93-104 | the mask never reaches the worker: with no edit between two start clicks, both hand over the same credential |
| `Ui.EditsSetFlagIff` | src/ui.rs:80-82 | after a commit, the flag is set iff some later edit changed the text; if it is not set, the state is unchanged |
| `Ui.EditsKeepFlag` | src/ui.rs:80-82 | no sequence of edits clears a set flag |

## Findings

| source | as written | input that shows it | evidently intended | confidence | as-written member | corrected member |
|---|---|---|---|---|---|---|
| src/tray.rs:160-162 | the tray thread sends the window handle back before `NIM_ADD`, so the `set_icon(self.enable)` that `take_command` runs next can issue its `NIM_MODIFY` before the icon exists; the modify fails and the grey icon added afterwards stays | an enabled tray whose window the shell destroyed, then `take_command`, with the new thread pre-empted right after `sx.send(hwnd)` | add the icon (and set its version) before sending the handle, so the replayed image always lands on an existing icon | medium, not executed | `Tray.RecreateAsWritten`, `TrayProperties.RecreateRaceShowsGray` | `Tray.Recreate` |
| src/tray.rs:341-352 | `delete` runs `DestroyWindow` on the caller's thread, but the window belongs to the tray thread that created it; Windows refuses to destroy another thread's window, so the window stays alive and the next `take_command` never recreates the deleted icon | `uninit_tray()` followed by `take_command()` | destroy the window on its own thread (for instance by posting it `WM_CLOSE`) so the icon and the window go together | medium, not executed | `Tray.DeleteAsWritten`, `TrayProperties.DeleteAsWrittenBlocksRecreation` | `Tray.Delete` |

## Left out

- Win32 calls (`Shell_NotifyIconW`, `CreateWindowExW`, `RegisterClassW`, `GetMessageW`/`DispatchMessageW`, `TrackPopupMenu`, `GetCursorPos`, `LoadIconW`, `IsWindow`, `DestroyWindow`) are foreign OS calls. They become effects in a log, the window handle becomes a liveness flag, and the menu pick is a parameter of the window procedure.
- Failures of `Shell_NotifyIconW` are not modelled, except for the modify that fails in the recreation race (`Tray.RecreateAsWritten`). The code only logs these results and never acts on them.
- Threads and channels (`std::thread::spawn`, `oneshot`/`mpsc`, blocking `recv`) and the unsafe `static mut Lazy` access are concurrency. A run is one sequential interleaving of operations, a sender is a channel number, and `recv` is decided by the first send on, or drop of the sender of, that channel in the log. Interleavings inside operations are not modelled; only the recreation race is made a parameter (`Tray.RecreateAsWritten`).
- druid's `submit_command` delivery is not modelled; only the submitted commands are recorded.
- `run_hiper_in_thread` and `stop_hiper` live in files that are not part of this model; they are recorded as actions.
- Widget layout, spacers and padding, colours, icons, page switching, the settings page, the warning label and the clipboard button are rendering. The TUN toggle's `disabled_if` (src/ui.rs:153) is the same predicate as the token box's.
- `dbg!`/`println!` logging, including the warning for an unknown button label, is left out.
- `Drop` calls `delete` (`Tray.DeleteAsWritten` as written, `Tray.Delete` as intended); the singleton is a `static` and is never dropped, so `Drop` itself is not modelled.
- The module-level wrappers (`set_tooltip`, `set_icon`, `notify`, `take_command`, `set_ctx`, `uninit_tray`) first force the lazy static (`Tray.Force`) and then call the method. Only `init_tray` is composed explicitly.
- The non-Windows build, where `take_command` always returns `Exit` and every other call does nothing, is left out.
- `WM_USER_PROCESS_COMMANDS` and the `NIM_SETVERSION` call carry no logic and are left out.
- Truncation works on UTF-16 code units and can split a surrogate pair. Nothing is claimed about the result being valid Unicode.
- Tray.Recreate: is stated for the corrected ordering in which the tray thread adds the icon before handing back its window; src/tray.rs:160-162 does not ensure that (see Findings).
- Tray.TakeCommand: replays the icon through `Tray.Recreate`, so its promise that a recreated window shows the icon for `enable` holds for the corrected ordering only.
- TrayProperties.ApplyKeepsIconInSync: holds for the corrected ordering only, because it rests on `Tray.Recreate`, and on the corrected `Tray.Delete` that `DeleteOp` applies; after `delete` as written the window stays alive without an icon, which no later `set_icon` or `take_command` repairs.
- TrayProperties.RunKeepsIconInSync: holds for the corrected ordering only, because it rests on `Tray.Recreate`, and on the corrected `Tray.Delete` that `DeleteOp` applies; a run containing `delete` as written leaves a live window without an icon.
- TrayProperties.TakeCommandWaitsOnLiveWindow: holds for the corrected ordering only, because it rests on `Tray.Recreate`.
- TrayProperties.RecreationScenario: holds for the corrected ordering only, because it rests on `Tray.Recreate`.
- Tray.Apply: applies the corrected `Tray.Recreate` (through `Tray.TakeCommand`) and the corrected `Tray.Delete` for `DeleteOp`; its own contract does not depend on either correction.
- Tray.Run: folds `Tray.Apply`, so its runs use the same two corrections.
- Tray.Delete: models the evidently intended destruction of the window; src/tray.rs:350 calls `DestroyWindow` from a thread that does not own the window, which fails (see Findings).
- TrayProperties.DeleteThenTakeRecreates: is stated for the corrected `Tray.Delete` only, and, for the shown icon, on the corrected ordering of `Tray.Recreate`.
- Tray.Prepare: replays the icon through `Tray.Recreate`, so its shown-icon clause holds for the corrected ordering only (see Findings).
- Tray.New: counts the grey `NIM_ADD` among the effects of `TrayIcon::new`, i.e. it assumes the add lands before `init_tray` returns. The source's `tray_thread` hands back the window first (src/tray.rs:160-162), so a `set_icon` or `set_tooltip` issued before that add can be lost; `TrayProperties.InitialState` and the icon invariant built on it rest on this assumption.
- A window message handled on the tray thread while `take_command` runs on another thread is not modelled. An "exit" picked between the `should_exit` test (src/tray.rs:251) and `self.sx = Some(sx)` (src/tray.rs:262) goes to the sender being replaced, and the new waiter keeps blocking although `should_exit` is set.
- The tray thread's message loop (src/tray.rs:165-169) is not modelled. Once its window is gone, `GetMessageW` on that handle returns -1, which the `!= 0` test does not stop on.
- The icon shown on screen is tracked only while the window is alive. It is the last image added or modified in the log, and a removal by `NIM_DELETE` is not tracked.

=== FILE: fixed_buffer.dfy ===
/**
 The fixed-capacity, zero-terminated text fields of the tray's notify-icon
 record (tooltip, balloon title, balloon message).

 `src/tray.rs` fills each of them with the same four `Vec<u16>` steps —
 `resize(N, 0)`, `pop()`, `push(0)`, then `try_into::<[u16; N]>().unwrap()` —
 which are modelled one by one below, so that the guarantees about the
 finished buffer are proved of the pipeline as written rather than assumed.
 */
module FixedBuffer {
  import opened Options
  import opened Utf16

  /** Field widths, in code units, including the terminator. */
  const TOOLTIP_UNITS: nat := 128
  const TITLE_UNITS: nat := 64
  const MESSAGE_UNITS: nat := 256

  /** `Vec::resize(n, fill)`: truncates to `n` or pads with `fill` up to `n`. */
  function Resize(v: seq<CodeUnit>, n: nat, fill: CodeUnit): (r: seq<CodeUnit>)
    ensures |r| == n
    ensures forall i :: 0 <= i < n && i < |v| ==> r[i] == v[i]
    ensures forall i :: |v| <= i < n ==> r[i] == fill
  {
    if n <= |v| then v[..n] else v + seq(n - |v|, _ => fill)
  }

  /** `Vec::pop`, keeping the vector: drops the last element, or nothing when empty. */
  function Pop(v: seq<CodeUnit>): (r: seq<CodeUnit>)
    ensures |v| > 0 ==> |r| == |v| - 1
    ensures |v| == 0 ==> r == []
    ensures r == v[..|r|]
  {
    if |v| == 0 then v else v[..|v| - 1]
  }

  /** `Vec::push` */
  function Push(v: seq<CodeUnit>, x: CodeUnit): (r: seq<CodeUnit>)
    ensures |r| == |v| + 1 && r[..|v|] == v && r[|v|] == x
  {
    v + [x]
  }

  /** `<[u16; n]>::try_from(v)`: succeeds exactly when the length is `n`. */
  function TryIntoArray(v: seq<CodeUnit>, n: nat): (r: Option<seq<CodeUnit>>)
    ensures r.Some? <==> |v| == n
    ensures r.Some? ==> r.value == v
  {
    if |v| == n then Some(v) else None
  }

  /**
   The whole pipeline. It yields an array for every input whenever the width
   is positive, so the `unwrap` after it cannot fail for the widths 128, 64
   and 256 used by the tray; only a zero width would make it panic.
   */
  function Pack(units: seq<CodeUnit>, n: nat): (r: Option<seq<CodeUnit>>)
    ensures r.Some? <==> n > 0
    ensures r.Some? ==> |r.value| == n && r.value[n - 1] == 0
    ensures r.Some? ==> forall i :: 0 <= i < n - 1 && i < |units| ==> r.value[i] == units[i]
    ensures r.Some? ==> forall i :: |units| <= i < n ==> r.value[i] == 0
  {
    TryIntoArray(Push(Pop(Resize(units, n, 0)), 0), n)
  }

  /** The packed array of a positive width, as the tray code unwraps it. */
  function Packed(units: seq<CodeUnit>, n: nat): (r: seq<CodeUnit>)
    requires n > 0
    ensures |r| == n && r[n - 1] == 0
    ensures forall i :: 0 <= i < n - 1 && i < |units| ==> r[i] == units[i]
    ensures forall i :: |units| <= i < n ==> r[i] == 0
  {
    Pack(units, n).value
  }

  /** `szTip`: the tooltip text, encoded to UTF-16 and packed to 128 units. */
  function TooltipBuffer(text: string): (r: seq<CodeUnit>)
    ensures |r| == TOOLTIP_UNITS && r[TOOLTIP_UNITS - 1] == 0
  {
    Packed(Encode(text), TOOLTIP_UNITS)
  }

  /** `szInfoTitle`: the balloon title, packed to 64 units. */
  function TitleBuffer(text: string): (r: seq<CodeUnit>)
    ensures |r| == TITLE_UNITS && r[TITLE_UNITS - 1] == 0
  {
    Packed(Encode(text), TITLE_UNITS)
  }

  /** `szInfo`: the balloon message, packed to 256 units. */
  function MessageBuffer(text: string): (r: seq<CodeUnit>)
    ensures |r| == MESSAGE_UNITS && r[MESSAGE_UNITS - 1] == 0
  {
    Packed(Encode(text), MESSAGE_UNITS)
  }

  /**
   How a reader of a zero-terminated field sees it: every unit before the
   first zero (the whole array when there is none).
   */
  function ReadTerminated(buf: seq<CodeUnit>): (r: seq<CodeUnit>)
    ensures |r| <= |buf| && r == buf[..|r|]
    ensures 0 !in r
    ensures |r| < |buf| ==> buf[|r|] == 0
  {
    if buf == [] || buf[0] == 0 then []
    else [buf[0]] + ReadTerminated(buf[1..])
  }

  function Min(a: nat, b: nat): nat
  {
    if a <= b then a else b
  }

  /**
   Reading a packed field back gives the first `n - 1` units of the input,
   or all of it when it is shorter, provided the input holds no zero unit.
   */
  lemma PackedReadsBack(units: seq<CodeUnit>, n: nat)
    requires n > 0 && 0 !in units
    ensures ReadTerminated(Packed(units, n)) == units[..Min(|units|, n - 1)]
  {
    var buf := Packed(units, n);
    var k := Min(|units|, n - 1);
    var r := ReadTerminated(buf);
    assert buf[k] == 0;
    assert forall i :: 0 <= i < k ==> buf[i] != 0 by {
      forall i | 0 <= i < k ensures buf[i] != 0 {
        assert units[i] in units;
      }
    }
  }

  /**
   Text short enough for the field and free of NUL characters is shown
   exactly: the units read back from the buffer decode to the original text.
   */
  lemma ShortTextShownExactly(text: string, n: nat)
    requires n > 0 && |Encode(text)| < n && '\0' !in text
    ensures Decode(ReadTerminated(Packed(Encode(text), n))) == Some(text)
  {
    EncodeHasZeroIff(text);
    PackedReadsBack(Encode(text), n);
    assert Encode(text)[..|Encode(text)|] == Encode(text);
    DecodeEncode(text);
  }

  /**
   The spill-over case: text too long for the field keeps exactly its first
   `n - 1` code units, however long it is (`ensures` on `Packed` says the
   rest is cut), and the reader sees those units and nothing else.
   */
  lemma LongTextTruncated(text: string, n: nat)
    requires n > 0 && |Encode(text)| >= n && '\0' !in text
    ensures |ReadTerminated(Packed(Encode(text), n))| == n - 1
    ensures ReadTerminated(Packed(Encode(text), n)) == Encode(text)[..n - 1]
  {
    EncodeHasZeroIff(text);
    PackedReadsBack(Encode(text), n);
  }

  /**
   For text of Basic Multilingual Plane characters (one code unit each) the
   tooltip shows the first 127 characters, so a 200-character tooltip shows
   exactly 127 of them.
   */
  lemma BmpTooltipShowsFirstChars(text: string)
    requires forall i :: 0 <= i < |text| ==> (text[i] as int) < SUPPLEMENTARY_MIN
    requires '\0' !in text
    ensures ReadTerminated(TooltipBuffer(text)) == Encode(text[..Min(|text|, TOOLTIP_UNITS - 1)])
  {
    var k := Min(|text|, TOOLTIP_UNITS - 1);
    EncodeHasZeroIff(text);
    EncodeBmpLength(text);
    EncodeBmpLength(text[..k]);
    assert text == text[..k] + text[k..];
    EncodeAppend(text[..k], text[k..]);
    PackedReadsBack(Encode(text), TOOLTIP_UNITS);
  }
}

=== FILE: options.dfy ===
/** The optional value used throughout the model, standing in for Rust's `Option`. */
module Options {

  datatype Option<+T> = None | Some(value: T)
}

=== FILE: text.dfy ===
/**
 Rust's `str::trim`: strips leading and trailing characters that have the
 Unicode `White_Space` property, as `char::is_whitespace` defines them.
 */
module Text {

  predicate IsWhitespace(c: char)
  {
    || ('\t' <= c <= '\r')
    || c == ' '
    || c == '\U{0085}'
    || c == '\U{00A0}'
    || c == '\U{1680}'
    || ('\U{2000}' <= c <= '\U{200A}')
    || c == '\U{2028}'
    || c == '\U{2029}'
    || c == '\U{202F}'
    || c == '\U{205F}'
    || c == '\U{3000}'
  }

  /** `str::trim_start` */
  function TrimStart(s: string): (r: string)
    ensures |r| <= |s| && r == s[|s| - |r|..]
    ensures forall i :: 0 <= i < |s| - |r| ==> IsWhitespace(s[i])
    ensures r != [] ==> !IsWhitespace(r[0])
  {
    if s != [] && IsWhitespace(s[0]) then TrimStart(s[1..]) else s
  }

  /** `str::trim_end` */
  function TrimEnd(s: string): (r: string)
    ensures |r| <= |s| && r == s[..|r|]
    ensures forall i :: |r| <= i < |s| ==> IsWhitespace(s[i])
    ensures r != [] ==> !IsWhitespace(r[|r| - 1])
  {
    if s != [] && IsWhitespace(s[|s| - 1]) then TrimEnd(s[..|s| - 1]) else s
  }

  /** `r` is `s` from index `k` on, less whitespace on both sides. */
  predicate CutAt(s: string, r: string, k: int)
  {
    0 <= k <= |s| - |r| && r == s[k..k + |r|]
    && (forall i :: 0 <= i < k ==> IsWhitespace(s[i]))
    && (forall i :: k + |r| <= i < |s| ==> IsWhitespace(s[i]))
  }

  /** `str::trim` */
  function Trim(s: string): (r: string)
    ensures exists k :: CutAt(s, r, k)
    ensures r != [] ==> !IsWhitespace(r[0]) && !IsWhitespace(r[|r| - 1])
  {
    CutOfParts(s, TrimStart(s), TrimEnd(TrimStart(s)));
    TrimEnd(TrimStart(s))
  }

  /** Cutting a whitespace prefix off `s`, and then a whitespace suffix off the rest, is a cut of `s`. */
  lemma CutOfParts(s: string, front: string, r: string)
    requires |front| <= |s| && front == s[|s| - |front|..]
    requires forall i :: 0 <= i < |s| - |front| ==> IsWhitespace(s[i])
    requires |r| <= |front| && r == front[..|r|]
    requires forall i :: |r| <= i < |front| ==> IsWhitespace(front[i])
    ensures CutAt(s, r, |s| - |front|)
  {
    var k := |s| - |front|;
    assert s[k..][..|r|] == s[k..k + |r|];
    forall i | k + |r| <= i < |s| ensures IsWhitespace(s[i]) {
      assert s[i] == front[i - k];
    }
  }

  /** A string trims to nothing exactly when every character in it is whitespace. */
  lemma TrimEmptyIff(s: string)
    ensures Trim(s) == [] <==> forall i :: 0 <= i < |s| ==> IsWhitespace(s[i])
  {
  }
}

=== FILE: tray.dfy ===
/**
 The tray-icon manager of `src/tray.rs` as a pure state machine.

 The `TrayIcon` singleton becomes an immutable record; each public operation
 and each message handled by the window procedure is a function from a record
 to the next record plus the list of side effects it performs, in order. Calls
 into the Windows shell, the druid event sink and the mpsc channel are not
 executed but recorded as `Effect`s: the effect list is the observable
 behaviour. The window handle is abstracted to whether the window is alive,
 the druid sink to whether one is installed, and each mpsc sender to the
 number of the channel it belongs to.
 */
module Tray {
  import opened Options
  import opened Utf16
  import opened FixedBuffer

  /** Window-message numbers, as defined by the Windows headers. */
  const WM_ACTIVATEAPP: nat := 0x001C
  const WM_LBUTTONUP: nat := 0x0202
  const WM_RBUTTONUP: nat := 0x0205
  const WM_USER: nat := 0x0400
  /** The callback message the notify icon is registered with. */
  const WM_USER_TRAYICON: nat := WM_USER + 1

  /** Command identifiers of the two context-menu items. */
  const MENU_SHOW: int := 1
  const MENU_EXIT: int := 2

  /** What the consumer of `take_command` can be told. */
  datatype TrayMessage = ShowWindow | Exit

  /** The two icon resources: coloured when enabled, grey otherwise. */
  datatype IconResource = Icon | IconGray

  /** The druid commands the tray submits to the application. */
  datatype AppCommand = ShowHiperWindow | CloseAllWindows

  datatype Effect =
    /** A tray thread registered the window class, created the hidden window
        and started pumping its messages. */
    | WindowCreated
    /** `NIM_ADD` of the icon with the given image, then `NIM_SETVERSION` 4. */
    | IconAdded(icon: IconResource)
    /** `NIM_MODIFY` of the icon image. */
    | IconModified(icon: IconResource)
    /** `NIM_MODIFY` of the tooltip field. */
    | TooltipModified(tip: seq<CodeUnit>)
    /** `NIM_MODIFY` of the balloon title and message fields. */
    | InfoModified(title: seq<CodeUnit>, message: seq<CodeUnit>)
    /** `NIM_DELETE` of the icon. */
    | IconDeleted
    /** A `DestroyWindow` call on the tray window; only the owning thread can succeed. */
    | WindowDestroyed
    /** The two-item context menu was shown at the cursor and `WM_NULL` posted. */
    | MenuShown
    /** `submit_command` on the installed druid sink. */
    | Submitted(command: AppCommand)
    /** `send` on the installed sender of the given channel. */
    | Sent(channel: nat, intent: TrayMessage)
    /** `self.sx = Some(..)` dropped the only sender of the given channel. */
    | SenderDropped(channel: nat)
    /** The message was passed on to `DefWindowProcW`. */
    | DefaultProcessed(windowMessage: nat)

  datatype TrayIcon = TrayIcon(
    windowAlive: bool,   // `IsWindow(hwnd)`
    enable: bool,
    shouldExit: bool,
    hasCtx: bool,        // `ctx.is_some()`
    sender: Option<nat>, // channel of the installed `sx`, if any
    channels: nat)       // channels created so far; the next one gets this number

  /** A sender, when installed, belongs to a channel already created. */
  predicate Valid(t: TrayIcon)
  {
    t.sender.Some? ==> t.sender.value < t.channels
  }

  /** The record after an operation, and what the operation did. */
  datatype Step = Step(tray: TrayIcon, effects: seq<Effect>)

  /** The answer of `take_command`: at once, or whatever arrives on a channel. */
  datatype Reply = Immediate(message: TrayMessage) | Awaiting(channel: nat)

  datatype Taken = Taken(tray: TrayIcon, effects: seq<Effect>, reply: Reply)

  /** The value the window procedure returns. */
  datatype LResult = Zero | FromDefaultProc

  datatype Handled = Handled(tray: TrayIcon, effects: seq<Effect>, result: LResult)

  function IconFor(enable: bool): (r: IconResource)
    ensures r == Icon <==> enable
  {
    if enable then Icon else IconGray
  }

  /** What `tray_thread` does: a new window whose icon is added grey. */
  function CreateWindow(): (r: seq<Effect>)
    ensures WindowCreated in r && ShownIcon(r) == Some(IconGray)
  {
    [WindowCreated, IconAdded(IconGray)]
  }

  /** `TrayIcon::new` */
  function New(): (r: Step)
    ensures Valid(r.tray) && r.tray.windowAlive
    ensures !r.tray.enable && !r.tray.shouldExit && !r.tray.hasCtx && r.tray.sender == None
    ensures ShownIcon(r.effects) == Some(IconFor(r.tray.enable))
  {
    Step(TrayIcon(true, false, false, false, None, 0), CreateWindow())
  }

  /** Dereferencing the `Lazy` static: the record is built on first use only. */
  function Force(g: Option<TrayIcon>): (r: Step)
    ensures g.Some? ==> r == Step(g.value, [])
    ensures g.None? ==> r == New()
  {
    match g
    case Some(t) => Step(t, [])
    case None => New()
  }

  /** `TrayIcon::set_icon` */
  function SetIcon(t: TrayIcon, enable: bool): (r: Step)
    ensures r.tray == t.(enable := enable)
    ensures r.effects == [IconModified(if enable then Icon else IconGray)]
  {
    Step(t.(enable := enable), [IconModified(IconFor(enable))])
  }

  /** `init_tray`: forces the singleton and shows it inactive. */
  function InitTray(g: Option<TrayIcon>): (r: Step)
    ensures !r.tray.enable
    ensures ShownIcon(r.effects) == Some(IconGray)
    ensures g.None? ==> Valid(r.tray) && r.tray.windowAlive && !r.tray.shouldExit
    ensures g.Some? ==> r.tray == g.value.(enable := false)
  {
    var s := Force(g);
    var u := SetIcon(s.tray, false);
    ShownIconAppend(s.effects, u.effects);
    Step(u.tray, s.effects + u.effects)
  }

  /** `TrayIcon::set_ctx` */
  function SetCtx(t: TrayIcon): (r: Step)
    ensures r.tray == t.(hasCtx := true) && r.effects == []
  {
    Step(t.(hasCtx := true), [])
  }

  /** `TrayIcon::set_tooltip`: done even after exit is requested. */
  function SetTooltip(t: TrayIcon, text: string): (r: Step)
    ensures r.tray == t
    ensures |r.effects| == 1 && r.effects[0].TooltipModified?
    ensures |r.effects[0].tip| == TOOLTIP_UNITS && r.effects[0].tip[TOOLTIP_UNITS - 1] == 0
    ensures forall i :: 0 <= i < TOOLTIP_UNITS - 1 && i < |Encode(text)| ==> r.effects[0].tip[i] == Encode(text)[i]
    ensures forall i :: |Encode(text)| <= i < TOOLTIP_UNITS ==> r.effects[0].tip[i] == 0
  {
    Step(t, [TooltipModified(TooltipBuffer(text))])
  }

  /** `TrayIcon::notify`: nothing at all once exit is requested. */
  function Notify(t: TrayIcon, title: string, message: string): (r: Step)
    ensures r.tray == t
    ensures t.shouldExit <==> r.effects == []
    ensures !t.shouldExit ==> |r.effects| == 1 && r.effects[0].InfoModified?
    ensures !t.shouldExit ==> |r.effects[0].title| == TITLE_UNITS && r.effects[0].title[TITLE_UNITS - 1] == 0
    ensures !t.shouldExit ==> |r.effects[0].message| == MESSAGE_UNITS && r.effects[0].message[MESSAGE_UNITS - 1] == 0
    ensures !t.shouldExit ==> forall i :: 0 <= i < TITLE_UNITS - 1 && i < |Encode(title)| ==> r.effects[0].title[i] == Encode(title)[i]
    ensures !t.shouldExit ==> forall i :: |Encode(title)| <= i < TITLE_UNITS ==> r.effects[0].title[i] == 0
    ensures !t.shouldExit ==> forall i :: 0 <= i < MESSAGE_UNITS - 1 && i < |Encode(message)| ==> r.effects[0].message[i] == Encode(message)[i]
    ensures !t.shouldExit ==> forall i :: |Encode(message)| <= i < MESSAGE_UNITS ==> r.effects[0].message[i] == 0
  {
    if t.shouldExit then Step(t, [])
    else Step(t, [InfoModified(TitleBuffer(title), MessageBuffer(message))])
  }

  /**
   `TrayIcon::delete` (also what `uninit_tray` and `Drop` do) as evidently
   intended: the icon is removed and the window destroyed. It does not set
   `should_exit`, so a later `take_command` recreates both.
   */
  function Delete(t: TrayIcon): (r: Step)
    ensures r.tray == t.(windowAlive := false)
    ensures IconDeleted in r.effects && WindowDestroyed in r.effects
    ensures ShownIcon(r.effects) == None
  {
    Step(t.(windowAlive := false), [IconDeleted, WindowDestroyed])
  }

  /**
   `TrayIcon::delete` as written. `DestroyWindow` runs on the caller's
   thread, but the window belongs to the tray thread that created it, and
   Windows refuses to destroy a window for another thread. The call fails
   silently, so the window outlives the deleted icon.
   */
  function DeleteAsWritten(t: TrayIcon): (r: Step)
    ensures r.tray == t
    ensures IconDeleted in r.effects
  {
    Step(t, [IconDeleted, WindowDestroyed])
  }

  /** The shell destroys the window behind the manager's back (explorer restart). */
  function LoseWindow(t: TrayIcon): (r: Step)
    ensures r.tray == t.(windowAlive := false) && r.effects == []
  {
    Step(t.(windowAlive := false), [])
  }

  /**
   `TrayIcon::take_command`. Once exit is requested it answers `Exit` and
   touches nothing. Otherwise it first recreates a lost window and replays
   the last requested icon onto it (see `Recreate`), then installs the
   sender of a brand-new channel, dropping the sender it replaces, and waits
   on the new channel.
   */
  function TakeCommand(t: TrayIcon): (r: Taken)
    ensures t.shouldExit ==> r == Taken(t, [], Immediate(Exit))
    ensures !t.shouldExit ==> r.reply == Awaiting(t.channels)
    ensures !t.shouldExit ==>
              r.tray == t.(windowAlive := true, sender := Some(t.channels), channels := t.channels + 1)
    ensures Valid(t) && !t.shouldExit ==> r.tray.sender != t.sender
    ensures !t.shouldExit && t.windowAlive ==> forall e :: e in r.effects ==> e.SenderDropped?
    ensures !t.shouldExit && !t.windowAlive ==>
              WindowCreated in r.effects && ShownIcon(r.effects) == Some(IconFor(t.enable))
    ensures !t.shouldExit && !t.windowAlive ==>
              && multiset(r.effects)[WindowCreated] == 1
              && forall e :: e in r.effects ==> e.WindowCreated? || e.IconAdded? || e.IconModified? || e.SenderDropped?
    ensures !t.shouldExit ==>
              forall c: nat :: SenderDropped(c) in r.effects <==> t.sender == Some(c)
    ensures forall c, m :: Sent(c, m) !in r.effects
    ensures Valid(t) ==> Valid(r.tray)
  {
    if t.shouldExit then Taken(t, [], Immediate(Exit))
    else
      var p := Prepare(t);
      var ch := p.tray.channels;
      Taken(p.tray.(sender := Some(ch), channels := ch + 1), p.effects, Awaiting(ch))
  }

  /** What `take_command` does before it waits: recreate a lost window, then drop the replaced sender. */
  function Prepare(t: TrayIcon): (r: Step)
    ensures r.tray == t.(windowAlive := true)
    ensures t.windowAlive ==> forall e :: e in r.effects ==> e.SenderDropped?
    ensures !t.windowAlive ==>
              && WindowCreated in r.effects && ShownIcon(r.effects) == Some(IconFor(t.enable))
              && multiset(r.effects)[WindowCreated] == 1
    ensures forall e :: e in r.effects ==> e.WindowCreated? || e.IconAdded? || e.IconModified? || e.SenderDropped?
    ensures forall c: nat :: SenderDropped(c) in r.effects <==> t.sender == Some(c)
  {
    var recreated := if t.windowAlive then Step(t, []) else Recreate(t);
    var dropped := Dropped(t.sender);
    ShownIconAppend(recreated.effects, dropped);
    assert multiset(dropped)[WindowCreated] == 0;
    Step(recreated.tray, recreated.effects + dropped)
  }

  /** Replacing `sx` drops the sender it held, if any. */
  function Dropped(sender: Option<nat>): (r: seq<Effect>)
    ensures forall e :: e in r ==> e.SenderDropped?
    ensures forall c: nat :: SenderDropped(c) in r <==> sender == Some(c)
    ensures ShownIcon(r) == None
  {
    match sender
    case Some(c) => [SenderDropped(c)]
    case None => []
  }

  /**
   The recreation branch of `take_command` (a new tray thread, then
   `set_icon(self.enable)`), with the tray thread handing back its window
   handle only after it has added the icon. The source hands the handle back
   first; `RecreateAsWritten` models that.
   */
  function Recreate(t: TrayIcon): (r: Step)
    ensures r.tray == t.(windowAlive := true)
    ensures WindowCreated in r.effects && ShownIcon(r.effects) == Some(IconFor(t.enable))
    ensures multiset(r.effects)[WindowCreated] == 1
    ensures forall e :: e in r.effects ==> e.WindowCreated? || e.IconAdded? || e.IconModified?
  {
    var s := SetIcon(t.(windowAlive := true), t.enable);
    ShownIconAppend(CreateWindow(), s.effects);
    Step(s.tray, CreateWindow() + s.effects)
  }

  /**
   The recreation branch as written: the tray thread sends the window handle
   back before its `NIM_ADD`, so the replayed `NIM_MODIFY` of `set_icon` and
   that `NIM_ADD` race. `addedFirst` is the thread scheduling. When the modify
   comes first it finds no icon and fails, and the grey icon added after it
   stays.
   */
  function RecreateAsWritten(t: TrayIcon, addedFirst: bool): (r: Step)
    ensures r.tray == t.(windowAlive := true) && WindowCreated in r.effects
    ensures addedFirst ==> ShownIcon(r.effects) == Some(IconFor(t.enable))
    ensures !addedFirst ==> ShownIcon(r.effects) == Some(IconGray)
  {
    if addedFirst then Recreate(t)
    else Step(t.(windowAlive := true), [WindowCreated, IconModified(IconFor(t.enable)), IconAdded(IconGray)])
  }

  /** `lparam.0 as u32 & 0xFFFF`: the low 16 bits of the two's-complement `lparam`. */
  function SubMessage(lparam: int): (r: nat)
    ensures r < 0x1_0000 && (lparam - r) % 0x1_0000 == 0
  {
    var asU32 := lparam % 0x1_0000_0000;
    asU32 % 0x1_0000
  }

  /** A left-button release on the icon, or "show" picked from its menu. */
  predicate IsShowActivation(msg: nat, lparam: int, choice: int)
  {
    msg == WM_USER_TRAYICON &&
    (SubMessage(lparam) == WM_LBUTTONUP || (SubMessage(lparam) == WM_RBUTTONUP && choice == MENU_SHOW))
  }

  /** "Exit" picked from the icon's context menu. */
  predicate IsExitActivation(msg: nat, lparam: int, choice: int)
  {
    msg == WM_USER_TRAYICON && SubMessage(lparam) == WM_RBUTTONUP && choice == MENU_EXIT
  }

  /** No effect occurs twice in the list. */
  predicate Distinct(effects: seq<Effect>)
  {
    forall i, j :: 0 <= i < j < |effects| ==> effects[i] != effects[j]
  }

  /** Hands one intent to both consumers, each at most once: the druid sink first, then the sender. */
  function Deliver(t: TrayIcon, command: AppCommand, message: TrayMessage): (r: seq<Effect>)
    ensures forall e :: e in r ==> e.Submitted? || e.Sent?
    ensures |r| == (if t.hasCtx then 1 else 0) + (if t.sender.Some? then 1 else 0)
    ensures t.hasCtx ==> r[0] == Submitted(command)
    ensures t.sender.Some? ==> r[|r| - 1] == Sent(t.sender.value, message)
    ensures Distinct(r)
    ensures forall c: nat, m :: Sent(c, m) in r <==> t.sender == Some(c) && m == message
    ensures forall cmd :: Submitted(cmd) in r <==> t.hasCtx && cmd == command
  {
    (if t.hasCtx then [Submitted(command)] else []) +
    (match t.sender case Some(c) => [Sent(c, message)] case None => [])
  }

  /**
   `tray_win_proc`. `choice` is what `TrackPopupMenu` returns when the menu
   is shown: the picked item's identifier, or 0 when the menu is dismissed.
   */
  function WinProc(t: TrayIcon, msg: nat, lparam: int, choice: int): (r: Handled)
    ensures r.tray == (if IsExitActivation(msg, lparam, choice) then t.(shouldExit := true) else t)
    ensures forall c: nat, m :: Sent(c, m) in r.effects <==>
              t.sender == Some(c) &&
              ((m == ShowWindow && IsShowActivation(msg, lparam, choice)) ||
               (m == Exit && IsExitActivation(msg, lparam, choice)))
    ensures forall cmd :: Submitted(cmd) in r.effects <==>
              t.hasCtx &&
              ((cmd == ShowHiperWindow && IsShowActivation(msg, lparam, choice)) ||
               (cmd == CloseAllWindows && IsExitActivation(msg, lparam, choice)))
    ensures MenuShown in r.effects <==> msg == WM_USER_TRAYICON && SubMessage(lparam) == WM_RBUTTONUP
    ensures r.result == FromDefaultProc <==> msg != WM_USER_TRAYICON && msg != WM_ACTIVATEAPP
    ensures forall e :: e in r.effects ==> !e.IconAdded? && !e.IconModified? && !e.WindowCreated? && !e.SenderDropped?
    ensures forall e :: e in r.effects ==> e == MenuShown || e.Submitted? || e.Sent? || e == DefaultProcessed(msg)
    ensures Distinct(r.effects)
  {
    if msg == WM_USER_TRAYICON then
      var sub := SubMessage(lparam);
      if sub == WM_LBUTTONUP then
        Handled(t, Deliver(t, ShowHiperWindow, ShowWindow), Zero)
      else if sub == WM_RBUTTONUP then
        if choice == MENU_SHOW then
          Handled(t, [MenuShown] + Deliver(t, ShowHiperWindow, ShowWindow), Zero)
        else if choice == MENU_EXIT then
          var t' := t.(shouldExit := true);
          Handled(t', [MenuShown] + Deliver(t', CloseAllWindows, Exit), Zero)
        else
          Handled(t, [MenuShown], Zero)
      else
        Handled(t, [], Zero)
    else if msg == WM_ACTIVATEAPP then
      Handled(t, [], Zero)
    else
      Handled(t, [DefaultProcessed(msg)], FromDefaultProc)
  }

  /**
   The icon image a log leaves on screen: the last one added or modified.
   Only asked of logs whose window is alive, which no successful deletion
   has removed.
   */
  function ShownIcon(log: seq<Effect>): Option<IconResource>
  {
    if log == [] then None
    else match log[|log| - 1]
      case IconAdded(i) => Some(i)
      case IconModified(i) => Some(i)
      case _ => ShownIcon(log[..|log| - 1])
  }

  lemma {:induction false} ShownIconAppend(a: seq<Effect>, b: seq<Effect>)
    ensures ShownIcon(a + b) == if ShownIcon(b).Some? then ShownIcon(b) else ShownIcon(a)
    decreases |b|
  {
    if b != [] {
      var ab := a + b;
      assert ab[|ab| - 1] == b[|b| - 1];
      assert ab[..|ab| - 1] == a + b[..|b| - 1];
      ShownIconAppend(a, b[..|b| - 1]);
    } else {
      assert a + b == a;
    }
  }

  /** The effect sends on, or drops the sender of, the given channel. */
  predicate Touches(e: Effect, channel: nat)
  {
    (e.Sent? || e.SenderDropped?) && e.channel == channel
  }

  /** Nothing in `log` before index `i` touches the channel. */
  predicate UntouchedBefore(log: seq<Effect>, channel: nat, i: int)
  {
    forall j :: 0 <= j < i && j < |log| ==> !Touches(log[j], channel)
  }

  /** What `rx.recv()` returns. */
  datatype Received =
    | Got(message: TrayMessage)
    | Blocked
    /** `recv` fails and the `unwrap` after it panics. */
    | Disconnected

  /**
   `rx.recv()` on a channel, after everything in `log` has happened: the
   first message sent on it; an error when its only sender was dropped before
   any send; otherwise it is still blocked.
   */
  function Receive(log: seq<Effect>, channel: nat): (r: Received)
    ensures r.Got? ==> exists i :: 0 <= i < |log| && log[i] == Sent(channel, r.message) && UntouchedBefore(log, channel, i)
    ensures r.Disconnected? ==> exists i :: 0 <= i < |log| && log[i] == SenderDropped(channel) && UntouchedBefore(log, channel, i)
    ensures r.Blocked? <==> UntouchedBefore(log, channel, |log|)
  {
    if log == [] then Blocked
    else if Touches(log[0], channel) then
      if log[0].Sent? then Got(log[0].intent) else Disconnected
    else
      var r := Receive(log[1..], channel);
      assert forall j :: 1 <= j < |log| ==> log[j] == log[1..][j - 1];
      r
  }

  lemma {:induction false} ReceiveSkipsUnrelated(a: seq<Effect>, b: seq<Effect>, channel: nat)
    requires UntouchedBefore(a, channel, |a|)
    ensures Receive(a + b, channel) == Receive(b, channel)
  {
    if a == [] {
      assert a + b == b;
    } else {
      assert (a + b)[0] == a[0];
      assert (a + b)[1..] == a[1..] + b;
      ReceiveSkipsUnrelated(a[1..], b, channel);
    }
  }

  /** Where no sender is dropped, a channel with exactly one intent sent on it receives that intent. */
  lemma {:induction false} ReceiveSoleIntent(log: seq<Effect>, channel: nat, m: TrayMessage)
    requires forall e :: e in log ==> !e.SenderDropped?
    requires forall m' :: Sent(channel, m') in log <==> m' == m
    ensures Receive(log, channel) == Got(m)
    decreases |log|
  {
    assert Sent(channel, m) in log;
    assert log[0] in log;
    if !Touches(log[0], channel) {
      assert log == [log[0]] + log[1..];
      assert forall e :: e in log[1..] ==> e in log;
      assert forall m' :: Sent(channel, m') in log[1..] <==> Sent(channel, m') in log;
      ReceiveSoleIntent(log[1..], channel, m);
    }
  }

  /** Where no sender is dropped and nothing is sent on a channel, its receiver keeps waiting. */
  lemma ReceiveNothingSent(log: seq<Effect>, channel: nat)
    requires forall e :: e in log ==> !e.SenderDropped?
    requires forall m :: Sent(channel, m) !in log
    ensures Receive(log, channel) == Blocked
  {
    forall j | 0 <= j < |log| ensures !Touches(log[j], channel) {
      assert log[j] in log;
    }
  }

  /** Every channel that a log sends on or drops was created before channel `n`. */
  predicate ChannelsBelow(log: seq<Effect>, n: nat)
  {
    forall i :: 0 <= i < |log| && (log[i].Sent? || log[i].SenderDropped?) ==> log[i].channel < n
  }

  /** The operations the rest of the application, and the shell, perform. */
  datatype Op =
    | InitOp
    | SetIconOp(enable: bool)
    | SetTooltipOp(text: string)
    | NotifyOp(title: string, message: string)
    | SetCtxOp
    | TakeCommandOp
    | DeleteOp
    | WindowLostOp
    | WindowMessageOp(msg: nat, lparam: int, choice: int)

  /** One operation, with the reply when the operation is `take_command`. */
  function Apply(t: TrayIcon, op: Op): (r: Outcome)
    ensures r.reply.Some? <==> op.TakeCommandOp?
    ensures t.channels <= r.tray.channels
    ensures !op.WindowMessageOp? ==> r.tray.shouldExit == t.shouldExit
  {
    match op
    case InitOp => var s := InitTray(Some(t)); Outcome(s.tray, s.effects, None)
    case SetIconOp(b) => var s := SetIcon(t, b); Outcome(s.tray, s.effects, None)
    case SetTooltipOp(text) => var s := SetTooltip(t, text); Outcome(s.tray, s.effects, None)
    case NotifyOp(title, message) => var s := Notify(t, title, message); Outcome(s.tray, s.effects, None)
    case SetCtxOp => var s := SetCtx(t); Outcome(s.tray, s.effects, None)
    case TakeCommandOp => var k := TakeCommand(t); Outcome(k.tray, k.effects, Some(k.reply))
    case DeleteOp => var s := Delete(t); Outcome(s.tray, s.effects, None)
    case WindowLostOp => var s := LoseWindow(t); Outcome(s.tray, s.effects, None)
    case WindowMessageOp(msg, lparam, choice) =>
      var h := WinProc(t, msg, lparam, choice); Outcome(h.tray, h.effects, None)
  }

  datatype Outcome = Outcome(tray: TrayIcon, effects: seq<Effect>, reply: Option<Reply>)

  /** The final record, the whole effect log and every `take_command` reply of a run. */
  datatype Trace = Trace(tray: TrayIcon, effects: seq<Effect>, replies: seq<Reply>)

  function Run(t: TrayIcon, ops: seq<Op>): (r: Trace)
    ensures |r.replies| <= |ops|
    ensures t.channels <= r.tray.channels
    ensures (forall i :: 0 <= i < |ops| ==> !ops[i].WindowMessageOp?) ==> r.tray.shouldExit == t.shouldExit
    decreases |ops|
  {
    if ops == [] then Trace(t, [], [])
    else
      var a := Apply(t, ops[0]);
      var rest := Run(a.tray, ops[1..]);
      Trace(rest.tray,
            a.effects + rest.effects,
            (if a.reply.Some? then [a.reply.value] else []) + rest.replies)
  }
}

=== FILE: tray_properties.dfy ===
/**
 Properties of whole runs of the tray manager: any interleaving of public
 calls, window messages and out-of-band window loss, starting from the state
 `init_tray` leaves behind.
 */
module TrayProperties {
  import opened Options
  import opened Tray

  /** The state replay invariant: a live window shows the icon for `enable`. */
  predicate IconInSync(t: TrayIcon, log: seq<Effect>)
  {
    t.windowAlive ==> ShownIcon(log) == Some(IconFor(t.enable))
  }

  /** No run can reuse a channel: the installed sender, every send and every
      dropped sender so far belong to channels numbered below the next fresh one. */
  predicate ChannelsFresh(t: TrayIcon, log: seq<Effect>)
  {
    Valid(t) && ChannelsBelow(log, t.channels)
  }

  lemma {:induction false} NoIconEffects(log: seq<Effect>)
    requires forall e :: e in log ==> !e.IconAdded? && !e.IconModified?
    ensures ShownIcon(log) == None
    decreases |log|
  {
    if log != [] {
      assert log[|log| - 1] in log;
      assert forall e :: e in log[..|log| - 1] ==> e in log;
      NoIconEffects(log[..|log| - 1]);
    }
  }

  /** `init_tray` on the not-yet-forced singleton starts a run in a good state. */
  lemma InitialState()
    ensures var s := InitTray(None);
            !s.tray.shouldExit && !s.tray.enable && s.tray.windowAlive &&
            IconInSync(s.tray, s.effects) && ChannelsFresh(s.tray, s.effects)
  {
  }

  lemma {:induction false} ApplyKeepsIconInSync(t: TrayIcon, log: seq<Effect>, op: Op)
    requires IconInSync(t, log)
    ensures var a := Apply(t, op); IconInSync(a.tray, log + a.effects)
  {
    var a := Apply(t, op);
    match op
    case WindowMessageOp(msg, lparam, choice) =>
      NoIconEffects(a.effects);
      ShownIconAppend(log, a.effects);
    case SetTooltipOp(_) =>
      NoIconEffects(a.effects);
      ShownIconAppend(log, a.effects);
    case NotifyOp(_, _) =>
      NoIconEffects(a.effects);
      ShownIconAppend(log, a.effects);
    case TakeCommandOp =>
      ShownIconAppend(log, a.effects);
    case _ =>
      ShownIconAppend(log, a.effects);
  }

  /**
   Whatever happens, including the shell destroying the window any number of
   times, a live window shows the icon of the last `set_icon` request.
   */
  lemma {:induction false} RunKeepsIconInSync(t: TrayIcon, log: seq<Effect>, ops: seq<Op>)
    requires IconInSync(t, log)
    ensures var r := Run(t, ops); IconInSync(r.tray, log + r.effects)
    decreases |ops|
  {
    if ops != [] {
      var a := Apply(t, ops[0]);
      ApplyKeepsIconInSync(t, log, ops[0]);
      RunKeepsIconInSync(a.tray, log + a.effects, ops[1..]);
      var rest := Run(a.tray, ops[1..]);
      assert Run(t, ops).effects == a.effects + rest.effects;
      assert (log + a.effects) + rest.effects == log + (a.effects + rest.effects);
    } else {
      assert log + Run(t, ops).effects == log;
    }
  }

  /**
   The self-healing guarantee of `take_command`: unless exit was requested,
   the caller only ever waits with a live window behind it, showing the icon
   the application last asked for.
   */
  lemma TakeCommandWaitsOnLiveWindow(t: TrayIcon, log: seq<Effect>)
    requires IconInSync(t, log) && !t.shouldExit
    ensures var k := TakeCommand(t);
            k.reply.Awaiting? && k.tray.windowAlive && ShownIcon(log + k.effects) == Some(IconFor(t.enable))
  {
    ApplyKeepsIconInSync(t, log, TakeCommandOp);
  }

  /**
   The recreation race as written: when the tray thread's `NIM_ADD` comes
   after the replayed `NIM_MODIFY`, a live window shows the grey icon although
   the application last asked for the coloured one, whatever came before.
   */
  lemma RecreateRaceShowsGray(t: TrayIcon, log: seq<Effect>)
    requires t.enable
    ensures var s := RecreateAsWritten(t, false);
            s.tray.windowAlive && !IconInSync(s.tray, log + s.effects)
  {
    ShownIconAppend(log, RecreateAsWritten(t, false).effects);
  }

  /**
   `delete` as written cannot be recovered from: the failed `DestroyWindow`
   leaves the window alive, so the next `take_command` sees no reason to
   recreate and the deleted icon never comes back.
   */
  lemma DeleteAsWrittenBlocksRecreation(t: TrayIcon)
    requires t.windowAlive && !t.shouldExit
    ensures var d := DeleteAsWritten(t);
            var k := TakeCommand(d.tray);
            && k.tray.windowAlive && IconDeleted in d.effects
              && forall e :: e in k.effects ==> !e.WindowCreated? && !e.IconAdded? && !e.IconModified?
  {
  }

  /** With the window really destroyed, the next `take_command` brings window and icon back. */
  lemma DeleteThenTakeRecreates(t: TrayIcon, log: seq<Effect>)
    requires !t.shouldExit
    ensures var d := Delete(t);
            var k := TakeCommand(d.tray);
            && k.tray.windowAlive && WindowCreated in k.effects
            && ShownIcon(log + d.effects + k.effects) == Some(IconFor(t.enable))
  {
    var d := Delete(t);
    var k := TakeCommand(d.tray);
    ShownIconAppend(log + d.effects, k.effects);
  }

  lemma {:induction false} ChannelsBelowAppend(a: seq<Effect>, b: seq<Effect>, n: nat)
    requires ChannelsBelow(a, n) && ChannelsBelow(b, n)
    ensures ChannelsBelow(a + b, n)
  {
  }

  lemma ChannelsBelowGrows(log: seq<Effect>, n: nat, m: nat)
    requires ChannelsBelow(log, n) && n <= m
    ensures ChannelsBelow(log, m)
  {
  }

  /** One operation sends only on channels already created, and never
      forgets how many channels exist. */
  lemma ApplySendsOnOldChannels(t: TrayIcon, op: Op)
    requires Valid(t)
    ensures var a := Apply(t, op);
            Valid(a.tray) && ChannelsBelow(a.effects, a.tray.channels) && t.channels <= a.tray.channels
  {
  }

  lemma {:induction false} RunSendsOnOldChannels(t: TrayIcon, ops: seq<Op>)
    requires Valid(t)
    ensures var r := Run(t, ops);
            Valid(r.tray) && ChannelsBelow(r.effects, r.tray.channels) && t.channels <= r.tray.channels
    decreases |ops|
  {
    if ops != [] {
      var a := Apply(t, ops[0]);
      var rest := Run(a.tray, ops[1..]);
      ApplySendsOnOldChannels(t, ops[0]);
      RunSendsOnOldChannels(a.tray, ops[1..]);
      ChannelsBelowGrows(a.effects, a.tray.channels, rest.tray.channels);
      ChannelsBelowAppend(a.effects, rest.effects, rest.tray.channels);
    }
  }

  lemma ApplyKeepsChannelsFresh(t: TrayIcon, log: seq<Effect>, op: Op)
    requires ChannelsFresh(t, log)
    ensures var a := Apply(t, op); ChannelsFresh(a.tray, log + a.effects) && t.channels <= a.tray.channels
  {
    var a := Apply(t, op);
    ApplySendsOnOldChannels(t, op);
    ChannelsBelowGrows(log, t.channels, a.tray.channels);
    ChannelsBelowAppend(log, a.effects, a.tray.channels);
  }

  lemma RunKeepsChannelsFresh(t: TrayIcon, log: seq<Effect>, ops: seq<Op>)
    requires ChannelsFresh(t, log)
    ensures var r := Run(t, ops); ChannelsFresh(r.tray, log + r.effects) && t.channels <= r.tray.channels
  {
    var r := Run(t, ops);
    RunSendsOnOldChannels(t, ops);
    ChannelsBelowGrows(log, t.channels, r.tray.channels);
    ChannelsBelowAppend(log, r.effects, r.tray.channels);
  }

  /**
   No intent is reused: the channel a `take_command` call waits on has seen
   nothing yet, so whatever it receives was sent after the call, by the
   activations that follow it.
   */
  lemma FreshRequestReceivesOnlyLaterIntents(t: TrayIcon, log: seq<Effect>, later: seq<Effect>)
    requires ChannelsFresh(t, log) && !t.shouldExit
    ensures var k := TakeCommand(t);
            Receive(log + k.effects + later, t.channels) == Receive(later, t.channels)
  {
    var k := TakeCommand(t);
    var before := log + k.effects;
    forall i | 0 <= i < |before| ensures !Touches(before[i], t.channels) {
      if i >= |log| {
        assert before[i] == k.effects[i - |log|];
        assert before[i] in k.effects;
      }
    }
    ReceiveSkipsUnrelated(before, later, t.channels);
  }

  /**
   The next activation after `take_command` answers it: a left click or
   "show" yields `ShowWindow`, "exit" yields `Exit`, anything else leaves the
   caller waiting.
   */
  lemma NextActivationAnswers(t: TrayIcon, log: seq<Effect>, msg: nat, lparam: int, choice: int)
    requires ChannelsFresh(t, log) && !t.shouldExit
    ensures var k := TakeCommand(t);
            var h := WinProc(k.tray, msg, lparam, choice);
            var answer := Receive(log + k.effects + h.effects, t.channels);
            && (IsShowActivation(msg, lparam, choice) ==> answer == Got(ShowWindow))
            && (IsExitActivation(msg, lparam, choice) ==> answer == Got(Exit) && h.tray.shouldExit)
            && (!IsShowActivation(msg, lparam, choice) && !IsExitActivation(msg, lparam, choice) ==> answer == Blocked)
  {
    var k := TakeCommand(t);
    var h := WinProc(k.tray, msg, lparam, choice);
    FreshRequestReceivesOnlyLaterIntents(t, log, h.effects);
    if IsShowActivation(msg, lparam, choice) {
      ReceiveSoleIntent(h.effects, t.channels, ShowWindow);
    } else if IsExitActivation(msg, lparam, choice) {
      ReceiveSoleIntent(h.effects, t.channels, Exit);
    } else {
      ReceiveNothingSent(h.effects, t.channels);
    }
  }

  /**
   A `take_command` still waiting when another one starts is cut off: the
   second call drops the only sender of the first call's channel, so the
   first caller's `recv` fails and its `unwrap` panics.
   */
  lemma SupersededWaiterPanics(t: TrayIcon, log: seq<Effect>, c: nat)
    requires !t.shouldExit && t.sender == Some(c) && Receive(log, c) == Blocked
    ensures Receive(log + TakeCommand(t).effects, c) == Disconnected
  {
    var k := TakeCommand(t);
    var recreated := if t.windowAlive then [] else Recreate(t).effects;
    assert k.effects == recreated + [SenderDropped(c)];
    assert log + k.effects == (log + recreated) + [SenderDropped(c)];
    ReceiveSkipsUnrelated(log + recreated, [SenderDropped(c)], c);
  }

  /** After exit was requested, no single operation undoes it, creates a window or waits. */
  lemma ApplyAfterExit(t: TrayIcon, op: Op)
    requires t.shouldExit
    ensures var a := Apply(t, op);
            && a.tray.shouldExit && WindowCreated !in a.effects
            && (a.reply.Some? ==> a.reply.value == Immediate(Exit))
  {
  }

  lemma {:induction false} ExitIsSticky(t: TrayIcon, ops: seq<Op>)
    requires t.shouldExit
    ensures Run(t, ops).tray.shouldExit
    ensures forall i :: 0 <= i < |Run(t, ops).replies| ==> Run(t, ops).replies[i] == Immediate(Exit)
    ensures WindowCreated !in Run(t, ops).effects
    decreases |ops|
  {
    if ops != [] {
      var a := Apply(t, ops[0]);
      ApplyAfterExit(t, ops[0]);
      ExitIsSticky(a.tray, ops[1..]);
      var rest := Run(a.tray, ops[1..]);
      var head := if a.reply.Some? then [a.reply.value] else [];
      assert Run(t, ops).replies == head + rest.replies;
      assert Run(t, ops).effects == a.effects + rest.effects;
    }
  }

  /** `should_exit` is only ever set by picking "exit" from the context menu. */
  lemma {:induction false} ExitOnlyFromMenu(t: TrayIcon, ops: seq<Op>)
    requires !t.shouldExit && Run(t, ops).tray.shouldExit
    ensures exists i :: 0 <= i < |ops| && ops[i].WindowMessageOp? &&
              IsExitActivation(ops[i].msg, ops[i].lparam, ops[i].choice)
    decreases |ops|
  {
    var a := Apply(t, ops[0]);
    if a.tray.shouldExit {
      assert ops[0].WindowMessageOp?;
    } else {
      ExitOnlyFromMenu(a.tray, ops[1..]);
      var i :| 0 <= i < |ops[1..]| && ops[1..][i].WindowMessageOp? &&
               IsExitActivation(ops[1..][i].msg, ops[1..][i].lparam, ops[1..][i].choice);
      assert ops[i + 1] == ops[1..][i];
    }
  }

  /**
   End to end: start inactive, go active, lose the window, then wait for a
   command. The window comes back showing the active icon and the next left
   click answers the wait with `ShowWindow`.
   */
  lemma RecreationScenario()
    ensures var s0 := InitTray(None);
            var s1 := SetIcon(s0.tray, true);
            var s2 := LoseWindow(s1.tray);
            var k := TakeCommand(s2.tray);
            var log := s0.effects + s1.effects + s2.effects + k.effects;
            var h := WinProc(k.tray, WM_USER_TRAYICON, WM_LBUTTONUP, 0);
            && k.tray.windowAlive && WindowCreated in k.effects
            && ShownIcon(log) == Some(Icon)
            && Receive(log + h.effects, k.reply.channel) == Got(ShowWindow)
  {
    var s0 := InitTray(None);
    var s1 := SetIcon(s0.tray, true);
    var s2 := LoseWindow(s1.tray);
    var k := TakeCommand(s2.tray);
    var log := s0.effects + s1.effects + s2.effects + k.effects;
    InitialState();
    ApplyKeepsChannelsFresh(s0.tray, s0.effects, SetIconOp(true));
    ApplyKeepsChannelsFresh(s1.tray, s0.effects + s1.effects, WindowLostOp);
    NextActivationAnswers(s2.tray, s0.effects + s1.effects + s2.effects, WM_USER_TRAYICON, WM_LBUTTONUP, 0);
    assert s2.tray.enable && !s2.tray.windowAlive && !s2.tray.shouldExit;
    ShownIconAppend(s0.effects + s1.effects + s2.effects, k.effects);
  }

  /**
   End to end: with the druid sink installed, "exit" picked from the menu
   asks the application to close exactly once, and answers every later
   `take_command` with `Exit` at once, without creating a window.
   */
  lemma ExitScenario(ops: seq<Op>)
    ensures var s0 := InitTray(None);
            var c := SetCtx(s0.tray);
            var h := WinProc(c.tray, WM_USER_TRAYICON, WM_RBUTTONUP, MENU_EXIT);
            var k1 := TakeCommand(h.tray);
            var k2 := TakeCommand(Run(k1.tray, ops).tray);
            && multiset(h.effects)[Submitted(CloseAllWindows)] == 1
            && k1.reply == Immediate(Exit) && k1.effects == []
            && k2.reply == Immediate(Exit) && k2.effects == []
  {
    var s0 := InitTray(None);
    var c := SetCtx(s0.tray);
    var h := WinProc(c.tray, WM_USER_TRAYICON, WM_RBUTTONUP, MENU_EXIT);
    assert h.effects == [MenuShown, Submitted(CloseAllWindows)];
    ExitIsSticky(TakeCommand(h.tray).tray, ops);
  }
}

=== FILE: ui.dfy ===
/**
 The main page's token box and start button of `src/ui.rs`, as pure updates
 of the application state.

 The token box keeps two strings: `token`, what the box displays, and
 `innerToken`, the credential actually handed to the worker. A click on the
 start button commits an edited box into `innerToken` and masks the box; the
 button's label then decides whether the worker is started or stopped. The
 worker itself (`run_hiper_in_thread`, `stop_hiper`) is not part of this
 model; its calls are recorded as `UiAction`s.
 */
module Ui {
  import opened Text

  /** Button label while the worker is stopped ("启动", start). */
  const START_LABEL: string := "\U{542F}\U{52A8}"
  /** Button label while the worker runs ("关闭", stop). */
  const STOP_LABEL: string := "\U{5173}\U{95ED}"
  /** What the box shows in place of a committed credential: eight bullets. */
  const MASK: string := "\U{2022}\U{2022}\U{2022}\U{2022}\U{2022}\U{2022}\U{2022}\U{2022}"
  /** The IP label's text before the address ("Hiper 正在运行！" newline "网络地址："). */
  const IP_PREFIX: string :=
    "Hiper \U{6B63}\U{5728}\U{8FD0}\U{884C}\U{FF01}\n\U{7F51}\U{7EDC}\U{5730}\U{5740}\U{FF1A}"

  /** The fields of `AppState` that the main page reads or writes. */
  datatype AppState = AppState(
    token: string,
    innerToken: string,
    tokenModified: bool,
    startButton: string,
    ip: string,
    useTun: bool)

  /** What a click asks of the worker and of the druid event sink. */
  datatype UiAction =
    | RunHiper(token: string, useTun: bool)  // `run_hiper_in_thread(ctx, token, use_tun)`
    | SetDisabled(disabled: bool)            // `submit_command(SET_DISABLED, ..)`
    | StopHiper                              // `stop_hiper(ctx)`

  datatype Click = Click(state: AppState, actions: seq<UiAction>)

  /** The token box's `on_change`: remembers that the displayed token was edited. */
  function OnChange(oldData: AppState, data: AppState): (r: AppState)
    ensures r.(tokenModified := data.tokenModified) == data
    ensures data.tokenModified ==> r.tokenModified
    ensures oldData.token != data.token ==> r.tokenModified
    ensures !data.tokenModified && oldData.token == data.token ==> r == data
  {
    data.(tokenModified := data.tokenModified || oldData.token != data.token)
  }

  /** Typing in the box: the lens replaces `token`, then `on_change` runs. */
  function Edit(s: AppState, text: string): (r: AppState)
    ensures r.token == text
    ensures r.(token := s.token, tokenModified := s.tokenModified) == s
  {
    OnChange(s, s.(token := text))
  }

  /** The first half of the start button's `on_click`: commit an edited box. */
  function Commit(data: AppState): (r: AppState)
    ensures data.tokenModified ==> r.innerToken == data.token && !r.tokenModified
    ensures data.tokenModified ==> (r.token == MASK <==> data.token != [])
    ensures data.tokenModified && data.token == [] ==> r.token == []
    ensures !data.tokenModified ==> r == data
    ensures r.startButton == data.startButton && r.ip == data.ip && r.useTun == data.useTun
  {
    if data.tokenModified then
      var inner := data.token;
      data.(innerToken := inner, token := if inner != [] then MASK else data.token, tokenModified := false)
    else data
  }

  /** The start button's `on_click`: commit, then start or stop by the label. */
  function OnClick(data: AppState): (r: Click)
    ensures r.state == Commit(data)
    ensures data.startButton == START_LABEL ==>
              r.actions == [RunHiper(if data.tokenModified then data.token else data.innerToken, data.useTun)]
    ensures data.startButton == STOP_LABEL ==> r.actions == [SetDisabled(true), StopHiper, SetDisabled(false)]
    ensures data.startButton != START_LABEL && data.startButton != STOP_LABEL ==> r.actions == []
  {
    var d := Commit(data);
    var token := d.innerToken;
    var actions :=
      if d.startButton == START_LABEL then [RunHiper(token, d.useTun)]
      else if d.startButton == STOP_LABEL then [SetDisabled(true), StopHiper, SetDisabled(false)]
      else [];
    Click(d, actions)
  }

  /** `disabled_if` of the start button: the box holds nothing but whitespace. */
  function StartDisabled(data: AppState): (r: bool)
    ensures r <==> forall i :: 0 <= i < |data.token| ==> IsWhitespace(data.token[i])
  {
    TrimEmptyIff(data.token);
    Trim(data.token) == []
  }

  /** `disabled_if` of the token box and of the TUN toggle: locked exactly while the IP row shows. */
  function InputsDisabled(data: AppState): (r: bool)
    ensures r <==> IpRowShown(data)
  {
    data.ip != []
  }

  /** `show_if` of the IP row: shown exactly when its label has text. */
  function IpRowShown(data: AppState): (r: bool)
    ensures r <==> IpLabel(data) != []
  {
    data.ip != []
  }

  /** The dynamic text of the IP label. */
  function IpLabel(data: AppState): (r: string)
    ensures r == [] <==> data.ip == []
    ensures data.ip != [] ==> |r| == |IP_PREFIX| + |data.ip| && r[..|IP_PREFIX|] == IP_PREFIX && r[|IP_PREFIX|..] == data.ip
  {
    if data.ip == [] then "" else IP_PREFIX + data.ip
  }

  /** The label shows the address unambiguously: equal labels mean equal addresses. */
  lemma IpLabelDeterminesIp(a: AppState, b: AppState)
    requires IpLabel(a) == IpLabel(b)
    ensures a.ip == b.ip
  {
  }

  /** Committing never disables the button that was just clicked: the mask is not blank. */
  lemma ClickKeepsStartEnabled(data: AppState)
    requires exists i :: 0 <= i < |data.token| && !IsWhitespace(data.token[i])
    ensures !StartDisabled(OnClick(data).state)
  {
  }

  /** A second click with no edit in between commits nothing more. */
  lemma ClickCommitIdempotent(data: AppState)
    ensures Commit(OnClick(data).state) == OnClick(data).state
  {
  }

  /**
   The mask never reaches the worker: with no edit between two clicks, the
   second hands the worker the same credential as the first, even though the
   box now shows bullets.
   */
  lemma SecondClickSameToken(data: AppState)
    requires data.startButton == START_LABEL
    ensures var first := OnClick(data);
            OnClick(first.state).actions == first.actions
  {
  }

  /** Applies the box edits `texts` one after the other. */
  function EditAll(s: AppState, texts: seq<string>): AppState
    decreases |texts|
  {
    if texts == [] then s else EditAll(Edit(s, texts[0]), texts[1..])
  }

  /** Some edit in `texts`, starting from the box showing `start`, changed the text. */
  predicate SomeEditChanged(start: string, texts: seq<string>)
  {
    exists i :: 0 <= i < |texts| && texts[i] != ([start] + texts)[i]
  }

  /**
   After a commit, `tokenModified` records exactly whether any edit since
   then changed the box, even when later edits restored the old text.
   */
  lemma {:induction false} EditsSetFlagIff(s: AppState, texts: seq<string>)
    requires !s.tokenModified
    ensures EditAll(s, texts).tokenModified <==> SomeEditChanged(s.token, texts)
    ensures !EditAll(s, texts).tokenModified ==> EditAll(s, texts) == s
    decreases |texts|
  {
    if texts != [] {
      var s' := Edit(s, texts[0]);
      if texts[0] != s.token {
        EditsKeepFlag(s', texts[1..]);
        assert texts[0] != ([s.token] + texts)[0];
      } else {
        assert s' == s;
        EditsSetFlagIff(s', texts[1..]);
        var tail := texts[1..];
        assert [s.token] + tail == texts;
        assert forall i :: 0 <= i < |tail| ==> ([s.token] + texts)[i + 1] == ([s.token] + tail)[i] && texts[i + 1] == tail[i];
        if SomeEditChanged(s.token, texts) {
          var i :| 0 <= i < |texts| && texts[i] != ([s.token] + texts)[i];
          assert tail[i - 1] != ([s.token] + tail)[i - 1];
        }
      }
    }
  }

  /** Editing never clears the flag. */
  lemma {:induction false} EditsKeepFlag(s: AppState, texts: seq<string>)
    requires s.tokenModified
    ensures EditAll(s, texts).tokenModified
    decreases |texts|
  {
    if texts != [] {
      EditsKeepFlag(Edit(s, texts[0]), texts[1..]);
    }
  }
}

=== FILE: utf16.dfy ===
/**
 UTF-16 encoding of Unicode text, as performed by Rust's `str::encode_utf16`.

 A Dafny `char` is a Unicode scalar value, so a `string` is exactly the
 sequence of scalar values that a Rust `&str` holds. `Encode` is the code-unit
 sequence the tray code collects into a `Vec<u16>`; `Decode` is its inverse
 and exists to state what the encoding preserves.
 */
module Utf16 {
  import opened Options

  /** A Rust `u16`. */
  type CodeUnit = x: int | 0 <= x < 0x1_0000

  const SURROGATE_HIGH_MIN: int := 0xD800
  const SURROGATE_LOW_MIN: int := 0xDC00
  const SURROGATE_END: int := 0xE000
  const SUPPLEMENTARY_MIN: int := 0x1_0000

  predicate IsHighSurrogate(u: CodeUnit)
  {
    SURROGATE_HIGH_MIN <= u < SURROGATE_LOW_MIN
  }

  predicate IsLowSurrogate(u: CodeUnit)
  {
    SURROGATE_LOW_MIN <= u < SURROGATE_END
  }

  /** The one or two code units of a single scalar value. */
  function EncodeChar(c: char): (r: seq<CodeUnit>)
    ensures |r| == 1 <==> (c as int) < SUPPLEMENTARY_MIN
    ensures |r| == 1 ==> r[0] == c as int && !IsHighSurrogate(r[0]) && !IsLowSurrogate(r[0])
    ensures |r| == 2 ==> IsHighSurrogate(r[0]) && IsLowSurrogate(r[1])
    ensures |r| == 1 || |r| == 2
    ensures r[0] == 0 <==> c == '\0'
  {
    var n := c as int;
    if n < SUPPLEMENTARY_MIN then
      [n]
    else
      var m := n - SUPPLEMENTARY_MIN;
      [SURROGATE_HIGH_MIN + m / 0x400, SURROGATE_LOW_MIN + m % 0x400]
  }

  /** `s.encode_utf16().collect()` */
  function Encode(s: string): (r: seq<CodeUnit>)
    ensures |s| <= |r| <= 2 * |s|
  {
    if s == [] then [] else EncodeChar(s[0]) + Encode(s[1..])
  }

  /** Joins a high and a low surrogate back into the scalar value they encode. */
  function CombineSurrogates(hi: CodeUnit, lo: CodeUnit): (c: char)
    requires IsHighSurrogate(hi) && IsLowSurrogate(lo)
    ensures SUPPLEMENTARY_MIN <= c as int
  {
    var n := (hi - SURROGATE_HIGH_MIN) * 0x400 + (lo - SURROGATE_LOW_MIN) + SUPPLEMENTARY_MIN;
    n as char
  }

  /** Decodes well-formed UTF-16; an unpaired surrogate anywhere gives None. */
  function Decode(u: seq<CodeUnit>): (r: Option<string>)
    ensures r.Some? ==> |r.value| <= |u|
  {
    if u == [] then Some([])
    else if IsHighSurrogate(u[0]) then
      if |u| >= 2 && IsLowSurrogate(u[1]) then
        match Decode(u[2..])
        case None => None
        case Some(rest) => Some([CombineSurrogates(u[0], u[1])] + rest)
      else None
    else if IsLowSurrogate(u[0]) then None
    else
      match Decode(u[1..])
      case None => None
      case Some(rest) => Some([u[0] as char] + rest)
  }

  /** Every scalar value survives a trip through its own code units. */
  lemma DecodeEncodeChar(c: char, rest: seq<CodeUnit>)
    ensures Decode(EncodeChar(c) + rest) == (match Decode(rest) case None => None case Some(t) => Some([c] + t))
  {
  }

  /** Decoding undoes encoding: no text is lost or altered by `Encode`. */
  lemma {:induction false} DecodeEncode(s: string)
    ensures Decode(Encode(s)) == Some(s)
  {
    if s != [] {
      DecodeEncode(s[1..]);
      DecodeEncodeChar(s[0], Encode(s[1..]));
      assert [s[0]] + s[1..] == s;
    }
  }

  /** Encoding distributes over concatenation. */
  lemma {:induction false} EncodeAppend(a: string, b: string)
    ensures Encode(a + b) == Encode(a) + Encode(b)
  {
    if a == [] {
      assert a + b == b;
    } else {
      assert (a + b)[0] == a[0];
      assert (a + b)[1..] == a[1..] + b;
      EncodeAppend(a[1..], b);
    }
  }

  /** A zero code unit appears in the encoding exactly where the text holds NUL. */
  lemma {:induction false} EncodeHasZeroIff(s: string)
    ensures (0 in Encode(s)) <==> ('\0' in s)
  {
    if s != [] {
      EncodeHasZeroIff(s[1..]);
      var e := EncodeChar(s[0]);
      assert 0 in e <==> s[0] == '\0';
      assert '\0' in s <==> s[0] == '\0' || '\0' in s[1..] by {
        assert s == [s[0]] + s[1..];
      }
    }
  }

  /** Text made of Basic Multilingual Plane characters encodes to one unit per character. */
  lemma {:induction false} EncodeBmpLength(s: string)
    requires forall i :: 0 <= i < |s| ==> (s[i] as int) < SUPPLEMENTARY_MIN
    ensures |Encode(s)| == |s|
    ensures forall i :: 0 <= i < |s| ==> Encode(s)[i] == s[i] as int
  {
    if s != [] {
      EncodeBmpLength(s[1..]);
    }
  }
}
